=== FILE: README.md ===
# ZenMatrix stock-to-ledger posting rules in Dafny

This project models the bookkeeping core of the ZenMatrix inventory and rental
back office. It covers the rules that run when a product is received into
stock, sold, leased out or returned from a lease. Each rule moves the product's
status, the contacts' receivable/payable balances, the capital accounts' cash
balances, and the append-only transaction ledger together. The project also
models the read-only reports built over those records, the daily product code
(`zencode`) generator, and the name `Product.save` builds for a whole machine.

The state is a value of `Store.Books`. It holds sequences of products,
contacts, capital accounts, rental contracts and transactions. The model
keeps each sequence in id order: the record with id k is element k - 1, so
ids start at 1 and id 0 never names a record. The lease's
`CapitalAccount.objects.first()` is then element 0. Money is integer cents,
because every money field is a two-place decimal.

Each posting is a pure function. It returns `Ok(new books)` or `Err(reason)`,
and an error means nothing was written. Request fields that Python tests for
truth are `Option<int>`: absent and zero are both false. These are the
supplier, contact and account ids and the settlement end value. `Store.Valid`
holds the database's guarantees: unique zencodes, unique contact names, every
product in its saved form, every text field within its column's
`max_length`, and foreign keys that resolve. Every posting
preserves it.

Modules, following the source:
- `Models` (models.dfy): the records of core/models.py, their enumerations and defaults, and `Product.save`.
- `Zencode` (zencode.dfy): `generate_zencode`, with a decoder as its inverse.
- `Store` (store.dfy): the books, the lookups, the balance primitives, and the invariant.
- `Postings` (postings.dfy): receive, sell, lease, settle, and contact creation.
- `Invariants` (invariants.dfy): each posting keeps `Valid`.
- `Analysis` (analysis.dfy): the profit, profit-detail and accounting reports, and how each posting moves them.
- `Results`, `Text` and `Sums` (text.dfy, sums.dfy): optional values, string helpers, and sums over sequences.

What the code does, and so what the model does:
- Receive keeps the product even when the supplier or account lookup fails, or when the BUY row's remark is wider than its 200-character column. It does not roll back. The failure is logged and dropped, so the supplier's debt is never recorded. `Postings.Receive` reports this as `Swallowed(error)`.
- A sale or lease whose ledger remark (a fixed prefix plus the product's name or code) is wider than 200 characters is refused, and everything it wrote is rolled back. A sale with a payment into an account is refused this way for any product whose name is longer than 194 characters.
- The monthly and yearly profit windows compare the receipt date in Shanghai time with the month and year of the UTC clock. A product carries both dates (`Models.Moment`). Its code and its detail row use the UTC date, and the window uses the local date.
- Settle does not require the contract to be active and has no cash leg. It posts no OTHER transaction.
- Lease takes the deposit into the first capital account, not into a chosen one. When no account exists, it records no transaction at all, not even one of amount zero.
- A product is one stock record. The code has no per-unit stock items, tenants, FIFO allocation, serial capture or repayments.

Three consequences of the code as written are proved rather than hidden:
- A sale that receives money with no account, and a purchase that pays money with no account, move the contact's balance but no cash. Net worth therefore shifts by the unrecorded amount (`Analysis.SellMovesNetWorth`, `Analysis.ReceiveMovesNetWorth`).
- Settling an old contract whose product has since been sold puts the product back in stock and drops the sale from gross profit (`Analysis.SettleMovesProfit`).
- A whole machine received with a blank name and every part as wide as its column allows derives a 304-character name. The name column holds 200, so the receipt is refused, although every field the form sent was within its limit (`Models.DerivedNameOverflows`, `Postings.Receive`).

## Model

| member | source | states |
|---|---|---|
| `Zencode.GenerateZencode` | core/views.py:26-34 | the code is the year tag, one month character, two day digits, the initials, the two-letter category and the digits of count + 1, with exactly that length |
| `Zencode.ZencodeRoundTrip` | core/views.py:26-34 | given the initials and category, a generated code reads back as year mod 100, the month, the day and the same-day count + 1 |
| `Zencode.ZencodeDistinctCounts` | core/views.py:33-34 | on one day, for one user and category, different same-day counts never give the same code |
| `Zencode.YearTagDigits` | core/views.py:28 | the last two characters of the year's decimal form are the year modulo 100 in two digits, from year 10 on |
| `Zencode.MonthTag` | core/views.py:29-30 | months 1-9 are one digit and 10, 11, 12 are A, B, C; the character decodes back to the month |
| `Text.TwoDigits` | core/views.py:31 | the day is written as exactly two digits that read back as the day |
| `Text.DecimalRoundTrip` | core/views.py:34 | the decimal form of the running number reads back as the number |
| `Models.Save` | core/models.py:54-67 | saving changes at most the name; only a whole machine with a blank name gets one, built from its parts joined by spaces; the name is empty exactly when it was blank and there is nothing to build it from |
| `Models.NamePartsWithCard` | core/models.py:57-62 | with a graphics card (non-empty, not an integrated label) the parts are the non-empty ones among cpu, ram, disk, gpu, note, in that order |
| `Models.NamePartsIntegrated` | core/models.py:57-65 | otherwise the parts are the non-empty ones among cpu, ram, disk, note, then the integrated-machine suffix exactly when there is a cpu |
| `Text.JoinWithSpaces` | core/models.py:66 | joining puts exactly one separator between consecutive parts and none at the ends: length is the parts' total plus one per gap |
| `Models.DerivedNameSplits` | core/models.py:66 | when the parts are words, the derived name splits back into exactly those parts, so it has no empty segment |
| `Text.SplitJoin` | core/models.py:66 | joining words with single spaces and splitting again gives the words back |
| `Models.SaveIdempotent` | core/models.py:54-67 | saving a saved product changes nothing |
| `Models.SavedAfterLedgerChange` | core/models.py:54-55 | status, cost and sold-price changes leave a saved product saved |
| `Models.NewContact` | core/models.py:25 | a new contact's balance is zero |
| `Models.NewContract` | core/models.py:75-90 | a new contract is active, for one month, with no end date and nothing billed, paid or expected |
| `Models.DerivedNameOverflows` | core/models.py:35-42 | a whole machine whose cpu, ram, disk and card fill their 50 characters and whose note fills its 100 derives a 304-character name, wider than the 200-character name column |
| `Postings.BlankReceiptDefaults` | core/models.py:44-49 | a receipt that sets only category and cost stores an IN_STOCK product with zero peer and retail prices, no sold price, an empty name and the generated code |
| `Postings.Receive` | core/views.py:51-87 | refused exactly when the stored product would not fit its columns (too long) or its code is taken (duplicate); otherwise the product appended is the draft under the given or generated code, with only the name derived by `save()`; the leg is posted exactly when the supplier exists and, when paying, the account exists and the BUY remark fits its column, and is swallowed otherwise; a posted leg moves the supplier by paid - cost, and by -paid plus one BUY transaction on the account only when paid > 0 and an account is named; without a posted leg only the product changes |
| `Postings.Sell` | core/views.py:91-127 | refused with no change for a missing product, no contact, a product not in stock, a missing contact or account, or a SALE remark over 200 characters; otherwise the product alone becomes SOLD at the price; the contact moves by price - received; the account gains received with one SALE transaction exactly when received > 0 and an account is named, and then account plus contact rise by exactly the price |
| `Postings.CreateLease` | core/views.py:142-179 | refused with no change for a missing product or contact, a product not in stock, or a RENT remark over 200 characters; otherwise the product becomes RENTED, exactly one active contract is appended, contacts are untouched, and a positive deposit goes to the first account with one RENT transaction when an account exists |
| `Postings.CreateLeaseAsWritten` | core/views.py:145-161 | after the same three checks every call is refused because the contract is built with two removed fields |
| `Postings.LeaseAsWrittenNeverOpens` | core/views.py:153-161 | wherever the intended lease opens, the lease as written is refused |
| `Postings.LeaseAsWrittenCounterexample` | core/views.py:153-161 | one in-stock product and one customer: the intended lease opens and the written one fails |
| `Postings.Settle` | core/views.py:182-199 | refused for a missing contract or an empty end value; otherwise the product alone returns to stock valued at the end value and the contract alone becomes inactive; accounts, contacts and ledger are untouched |
| `Postings.AddContact` | core/models.py:21-25 | a blank name, a field wider than its column, or a taken name is refused, in that order; otherwise one contact with zero balance is appended, nothing else changes, and names stay unique |
| `Invariants.ReceiveKeepsValid` | core/models.py:34 | receiving keeps zencodes and contact names unique, products saved, fields within their columns and links resolvable |
| `Invariants.SellKeepsValid` | core/views.py:101-123 | selling keeps the books valid |
| `Invariants.CreateLeaseKeepsValid` | core/views.py:145-175 | leasing keeps the books valid |
| `Invariants.SettleKeepsValid` | core/views.py:188-195 | settling keeps the books valid |
| `Invariants.AddContactKeepsValid` | core/models.py:22 | creating a contact keeps the books valid |
| `Invariants.ProductEditKeepsValid` | core/models.py:34 | changing one product but not its code keeps codes unique and products saved |
| `Analysis.Profit` | core/views.py:204-223 | gross profit is sales minus cost and also the sum of each sold, in-window product's margin, so it is not negative when none sold below cost; the count is at most the number of products and zero exactly when none is reported; `ProfitDetail` agrees with it, and `SellMovesProfit` and `SettleMovesProfit` give how a sale and a settlement move it |
| `Analysis.CountBounds` | core/views.py:222 | the reported count lies between zero and the number of products, and is zero exactly when no product is sold and in the window |
| `Analysis.LateEveningReceiptCountsNextMonth` | core/views.py:208-212 | a product received late on 31 October UTC, which is 1 November in Shanghai, falls in November's month window but not October's, while its detail row shows 31 October |
| `Analysis.ProfitDetail` | core/views.py:226-261 | one row per sold product received in the window (judged on the local receipt date), newest first, dated by the UTC receipt date; the summary's sales, cost, profit and count agree with the profit report, and its profit is the sum of the rows' profits |
| `Analysis.SellMovesProfit` | core/views.py:204-223 | a sale adds price - cost to gross profit and one to the count when the product was received in the window, and nothing otherwise |
| `Analysis.Accounting` | core/views.py:264-279 | cash is the sum of account balances and stock the sum of in-stock costs; receivable sums the positive balances and payable the negative ones, so receivable is not negative, payable not positive, and together they are the sum of all balances; net worth is cash + stock + receivable - abs(payable), which is cash plus stock plus every contact balance; one account line per account |
| `Analysis.SellMovesNetWorth` | core/views.py:91-127 | a sale moves net worth by price - cost, less any amount received with no account to hold it |
| `Analysis.ReceiveMovesNetWorth` | core/views.py:51-87 | a receipt moves net worth by the new product's stock value plus the posted leg's effect; a fully paid, posted purchase into stock leaves it unchanged |
| `Analysis.CreateLeaseMovesNetWorth` | core/views.py:163-175 | a lease removes the product's cost from net worth and adds the deposit when there is an account for it |
| `Analysis.SettleMovesNetWorth` | core/views.py:188-195 | settling moves net worth by the end value minus the product's previous stock value |
| `Analysis.SettleMovesProfit` | core/views.py:182-199 | settling a contract whose product is sold removes that sale's profit from the report |

## Findings

| source | as written | input that shows it | evidently intended | confidence | as-written member | corrected member |
|---|---|---|---|---|---|---|
| core/views.py:153-161 | `create_lease` builds the contract with `rent_strategy` and `initial_value`, which core/models.py:80-82 removed, so the constructor raises and the atomic block rolls back | any in-stock product and existing customer, e.g. product 1 in stock and contact 1 with deposit 0 | open an active contract with the remaining fields, mark the product RENTED, and book a positive deposit into the first account | high; not executed | `Postings.CreateLeaseAsWritten` (`Postings.LeaseAsWrittenCounterexample`) | `Postings.CreateLease` |

## Left out

- Page-render views, search filters and `get_queryset` status filtering are HTTP and template plumbing.
- Serializers, admin screens, URL routing and settings are framework configuration with no logic. The admin also still filters on the removed `rent_strategy`.
- The database, `transaction.atomic`, locking and concurrency are not modelled. Atomicity is the Ok/Err step, so the race in the count-then-format code generator is out of reach.
- The clock and the live same-day product count are inputs: `today`, `now` and `sameDayCount`.
- Parsing request values with `Decimal(str(...))` is left out. Amounts arrive as integers, and a missing `price` on a sale (which would raise before any write) is not a case.
- Image upload, product timestamps finer than a day, and the response payloads' wording are left out. `Transaction.created_at` is left out entirely: no report reads it, so the ledger records carry no date.
- Request ids and the end value are read as JSON numbers, so zero is false. A form-encoded string `"0"` is true in Python. For an account id, that string would reach the lookup and fail there. The model does not distinguish the two.
- `Postings.AddContact`: the new contact takes the default zero balance. The contact endpoint would also accept an opening balance in the request.
- The clock is an input. `generate_zencode` and the reports read the UTC date, and the model does not check that a moment's local date is its UTC date or the next day.
- Authentication is reduced to `Actor`: anonymous, or a user with an id and initials.
- Capital-account creation is admin-only and is not modelled.
- Decimal field widths (`max_digits`) are not modelled. Money is unbounded, so an amount the database would refuse as too wide is accepted here.
- `Analysis.Accounting`: the account lines come from `CapitalAccount.objects.all()` with no ordering, so the database may return them in any order. The model lists them in id order.
- The generic create, update and delete endpoints of the product, contact and rental view sets are not modelled. Through them a record can be deleted, which breaks "id k is element k - 1". A contact's balance or a product's status and cost can be edited directly, outside any posting. A rental contract can be created without `create_lease`.
- The serializer trims surrounding whitespace from text fields before it checks them, and it checks a given zencode's uniqueness as well. The model takes text as sent and checks the widths before the code's uniqueness, so a request that breaks both rules is refused as too long.
- `Postings.Sell`, `Postings.CreateLease`, `Postings.Settle`: each saves a stored product again. In valid books that leaves the name, and so the product's column widths, as it was, so the only width error these postings carry is the ledger remark's. For books that are not valid, a product whose name `save()` derives anew could be refused by the database. That case is not modelled.
- The user's initials are taken as given. Their own 5-character column is not checked.
- `Analysis.ProfitDetail`: rows are ordered newest first by position in the product sequence. Equal `created_at` timestamps, whose order the database leaves open, are not distinguished.

=== FILE: analysis.dfy ===
/**
 * The read-only reports of `AnalysisViewSet` (core/views.py): gross profit
 * over sold products, the per-product profit sheet, and the balance-sheet
 * summary; and how each posting moves them.
 */
module Analysis {
  import opened Results
  import opened Models
  import opened Store
  import opened Postings
  import opened Sums

  // ---- profit and profit_detail ----

  /**
   * The report window, judged on the date the product was received: the
   * `period` query parameter `month`, `year`, or anything else for all time.
   */
  datatype Period = AllTime | ThisMonth | ThisYear

  /**
   * The database reads the receipt month and year in local time, while `now`
   * is the UTC date of `timezone.now()`: the two sides of the comparison are
   * taken in different zones.
   */
  predicate InPeriod(p: Product, period: Period, now: Date) {
    match period
    case AllTime => true
    case ThisMonth => p.created.local.month == now.month && p.created.local.year == now.year
    case ThisYear => p.created.local.year == now.year
  }

  /**
   * A product received at 18:00 UTC on 31 October is received on 1 November in
   * Shanghai: the November month report counts it, the October one does not,
   * and its detail row is still dated 31 October.
   */
  lemma LateEveningReceiptCountsNextMonth()
    ensures var p := Product("25A31ADSJ1", "内存条", SJ, "", "", "", "", "", 20000, 0, 0, Some(30000), Sold,
                             Moment(Date(2025, 10, 31), Date(2025, 11, 1)));
            && Reported(p, ThisMonth, Date(2025, 11, 5))
            && !Reported(p, ThisMonth, Date(2025, 10, 31))
            && RowOf(p).date == Date(2025, 10, 31)
  {
  }

  /** A product the profit reports include: sold, and received within the window. */
  predicate Reported(p: Product, period: Period, now: Date) {
    p.status == Sold && InPeriod(p, period, now)
  }

  /** A missing sold price counts as zero, as `p.sold_price or 0` does. */
  function SalesIn(period: Period, now: Date): Product -> int {
    p => if Reported(p, period, now) then p.soldPrice.GetOr(0) else 0
  }

  function CostIn(period: Period, now: Date): Product -> int {
    p => if Reported(p, period, now) then p.costPrice else 0
  }

  function CountIn(period: Period, now: Date): Product -> int {
    p => if Reported(p, period, now) then 1 else 0
  }

  /** What one product adds to gross profit: its margin when it is reported, nothing otherwise. */
  function MarginIn(period: Period, now: Date): Product -> int {
    p => if Reported(p, period, now) then p.soldPrice.GetOr(0) - p.costPrice else 0
  }

  /** The count is at most the number of products, and zero exactly when none is reported. */
  lemma {:induction false} CountBounds(ps: seq<Product>, period: Period, now: Date)
    ensures 0 <= Sum(ps, CountIn(period, now)) <= |ps|
    ensures Sum(ps, CountIn(period, now)) == 0 <==> forall k :: 0 <= k < |ps| ==> !Reported(ps[k], period, now)
    decreases |ps|
  {
    if ps != [] {
      CountBounds(ps[1..], period, now);
      assert forall k :: 1 <= k < |ps| ==> ps[1..][k - 1] == ps[k];
    }
  }

  lemma NoLossNoNegativeProfit(ps: seq<Product>, period: Period, now: Date)
    ensures (forall k :: 0 <= k < |ps| && Reported(ps[k], period, now) ==> ps[k].soldPrice.GetOr(0) >= ps[k].costPrice)
            ==> Sum(ps, MarginIn(period, now)) >= 0
  {
    if forall k :: 0 <= k < |ps| && Reported(ps[k], period, now) ==> ps[k].soldPrice.GetOr(0) >= ps[k].costPrice {
      SumNonNegative(ps, MarginIn(period, now));
    }
  }

  datatype ProfitReport = ProfitReport(totalSales: int, totalCost: int, grossProfit: int, count: int)

  /**
   * `AnalysisViewSet.profit`: sales and cost totals over the reported products.
   * Gross profit is the sum of each reported product's margin, so it is not
   * negative when nothing reported sold below cost.
   */
  function Profit(b: Books, period: Period, now: Date): (r: ProfitReport)
    ensures r.grossProfit == r.totalSales - r.totalCost
    ensures r.grossProfit == Sum(b.products, MarginIn(period, now))
    ensures (forall k :: 0 <= k < |b.products| && Reported(b.products[k], period, now) ==>
               b.products[k].soldPrice.GetOr(0) >= b.products[k].costPrice) ==> r.grossProfit >= 0
    ensures 0 <= r.count <= |b.products|
    ensures r.count == 0 <==> forall k :: 0 <= k < |b.products| ==> !Reported(b.products[k], period, now)
  {
    CountBounds(b.products, period, now);
    SumSplit(b.products, MarginIn(period, now), CostIn(period, now), SalesIn(period, now));
    NoLossNoNegativeProfit(b.products, period, now);
    var sales := Sum(b.products, SalesIn(period, now));
    var cost := Sum(b.products, CostIn(period, now));
    ProfitReport(sales, cost, sales - cost, Sum(b.products, CountIn(period, now)))
  }

  datatype DetailRow = DetailRow(zencode: string, name: string, date: Date, price: int, profit: int)

  datatype ProfitSheet = ProfitSheet(sales: int, cost: int, profit: int, count: int, rows: seq<DetailRow>)

  function RowOf(p: Product): DetailRow {
    DetailRow(p.zencode, p.name, p.created.utc, p.soldPrice.GetOr(0), p.soldPrice.GetOr(0) - p.costPrice)
  }

  function RowProfit(row: DetailRow): int {
    row.profit
  }

  /** The rows of the reported products, newest (last received) first. */
  function DetailRows(ps: seq<Product>, period: Period, now: Date): seq<DetailRow> {
    if ps == [] then []
    else DetailRows(ps[1..], period, now) + (if Reported(ps[0], period, now) then [RowOf(ps[0])] else [])
  }

  /**
   * `AnalysisViewSet.profit_detail`: one row per reported product, newest
   * first, and a summary whose totals agree with `Profit` and whose profit is
   * the sum of the rows' profits.
   */
  method ProfitDetail(b: Books, period: Period, now: Date) returns (sheet: ProfitSheet)
    ensures sheet.rows == DetailRows(b.products, period, now)
    ensures sheet.sales == Profit(b, period, now).totalSales
    ensures sheet.cost == Profit(b, period, now).totalCost
    ensures sheet.profit == Profit(b, period, now).grossProfit
    ensures sheet.count == |sheet.rows| == Profit(b, period, now).count
    ensures sheet.profit == Sum(sheet.rows, RowProfit)
  {
    var ps := b.products;
    var rows: seq<DetailRow> := [];
    var sales := 0;
    var cost := 0;
    var i := |ps|;
    while i > 0
      invariant 0 <= i <= |ps|
      invariant rows == DetailRows(ps[i..], period, now)
      invariant sales == Sum(ps[i..], SalesIn(period, now))
      invariant cost == Sum(ps[i..], CostIn(period, now))
      invariant |rows| == Sum(ps[i..], CountIn(period, now))
      invariant Sum(rows, RowProfit) == sales - cost
      decreases i
    {
      i := i - 1;
      var p := ps[i];
      assert ps[i..][1..] == ps[i + 1..];
      if Reported(p, period, now) {
        SumAppend(rows, RowOf(p), RowProfit);
        rows := rows + [RowOf(p)];
        sales := sales + p.soldPrice.GetOr(0);
        cost := cost + p.costPrice;
      }
    }
    assert ps[0..] == ps;
    sheet := ProfitSheet(sales, cost, sales - cost, |rows|, rows);
  }

  // ---- accounting ----

  function CashOf(a: CapitalAccount): int {
    a.currentBalance
  }

  /** What a product adds to stock: its cost while it is in stock, nothing otherwise. */
  function StockValue(p: Product): int {
    if p.status == InStock then p.costPrice else 0
  }

  function BalanceOf(c: Contact): int {
    c.balance
  }

  function ReceivableOf(c: Contact): int {
    if c.balance > 0 then c.balance else 0
  }

  function PayableOf(c: Contact): int {
    if c.balance < 0 then c.balance else 0
  }

  function Abs(x: int): int {
    if x < 0 then -x else x
  }

  datatype AccountLine = AccountLine(id: int, name: string, balance: int)

  datatype Position = Position(cash: int, stock: int, receivable: int, payable: int, netWorth: int,
                               accounts: seq<AccountLine>)

  /**
   * `AnalysisViewSet.accounting`: cash in every account, stock at cost,
   * receivables (positive balances) and payables (negative balances), and net
   * worth = cash + stock + receivable - |payable|, which is cash plus stock
   * plus every contact balance.
   */
  function Accounting(b: Books): (r: Position)
    ensures r.cash == Sum(b.accounts, CashOf)
    ensures r.stock == Sum(b.products, StockValue)
    ensures r.receivable == Sum(b.contacts, ReceivableOf) && r.payable == Sum(b.contacts, PayableOf)
    ensures r.receivable >= 0 && r.payable <= 0
    ensures r.receivable + r.payable == Sum(b.contacts, BalanceOf)
    ensures r.netWorth == r.cash + r.stock + r.receivable - Abs(r.payable)
    ensures r.netWorth == r.cash + r.stock + Sum(b.contacts, BalanceOf)
    ensures |r.accounts| == |b.accounts|
    ensures forall k :: 0 <= k < |b.accounts| ==>
              r.accounts[k] == AccountLine(k + 1, b.accounts[k].name, b.accounts[k].currentBalance)
  {
    SumNonNegative(b.contacts, ReceivableOf);
    SumNonPositive(b.contacts, PayableOf);
    SumSplit(b.contacts, ReceivableOf, PayableOf, BalanceOf);
    var cash := Sum(b.accounts, CashOf);
    var stock := Sum(b.products, StockValue);
    var receivable := Sum(b.contacts, ReceivableOf);
    var payable := Sum(b.contacts, PayableOf);
    var lines := seq(|b.accounts|, k requires 0 <= k < |b.accounts| =>
                       AccountLine(k + 1, b.accounts[k].name, b.accounts[k].currentBalance));
    Position(cash, stock, receivable, payable, cash + stock + receivable - Abs(payable), lines)
  }

  function NetWorth(b: Books): int {
    Accounting(b).netWorth
  }

  // ---- moving sums by one record ----

  lemma ContactsMovedSum(b: Books, t: Books, id: int, delta: int)
    requires HasContact(b, id) && ContactsMoved(b, t, id, delta)
    ensures Sum(t.contacts, BalanceOf) == Sum(b.contacts, BalanceOf) + delta
  {
    var c := b.contacts[id - 1];
    assert t.contacts == b.contacts[id - 1 := c.(balance := c.balance + delta)];
    SumUpdate(b.contacts, id - 1, c.(balance := c.balance + delta), BalanceOf);
  }

  lemma AccountsMovedSum(b: Books, t: Books, id: int, delta: int)
    requires HasAccount(b, id) && AccountsMoved(b, t, id, delta)
    ensures Sum(t.accounts, CashOf) == Sum(b.accounts, CashOf) + delta
  {
    var a := b.accounts[id - 1];
    assert t.accounts == b.accounts[id - 1 := a.(currentBalance := a.currentBalance + delta)];
    SumUpdate(b.accounts, id - 1, a.(currentBalance := a.currentBalance + delta), CashOf);
  }

  lemma ProductSwapSum(b: Books, t: Books, id: int, f: Product -> int)
    requires HasProduct(b, id) && OtherProductsKept(b, t, id)
    ensures Sum(t.products, f) == Sum(b.products, f) - f(ProductOf(b, id)) + f(ProductOf(t, id))
  {
    assert t.products == b.products[id - 1 := ProductOf(t, id)];
    SumUpdate(b.products, id - 1, ProductOf(t, id), f);
  }

  // ---- how postings move the reports ----

  /**
   * A sale turns the product's stock value into the price, owed by the contact
   * or paid into an account: net worth moves by price minus cost, less any
   * amount received without an account to put it in.
   */
  lemma SellMovesNetWorth(b: Books, id: int, price: int, received: int, contact: Option<int>,
                          account: Option<int>, actor: Actor)
    requires Sell(b, id, price, received, contact, account, actor).Ok?
    ensures NetWorth(Sell(b, id, price, received, contact, account, actor).value)
            == NetWorth(b) + price - ProductOf(b, id).costPrice
               - (if PaysFrom(received, account) then 0 else received)
  {
    var t := Sell(b, id, price, received, contact, account, actor).value;
    ProductSwapSum(b, t, id, StockValue);
    ContactsMovedSum(b, t, contact.value, price - received);
    if PaysFrom(received, account) {
      AccountsMovedSum(b, t, account.value, received);
    }
  }

  /** A sale adds price minus cost to gross profit when the product was received in the window. */
  lemma SellMovesProfit(b: Books, id: int, price: int, received: int, contact: Option<int>,
                        account: Option<int>, actor: Actor, period: Period, now: Date)
    requires Sell(b, id, price, received, contact, account, actor).Ok?
    ensures var before := Profit(b, period, now);
            var after := Profit(Sell(b, id, price, received, contact, account, actor).value, period, now);
            var p := ProductOf(b, id);
            && after.grossProfit == before.grossProfit + (if InPeriod(p, period, now) then price - p.costPrice else 0)
            && after.count == before.count + (if InPeriod(p, period, now) then 1 else 0)
  {
    var t := Sell(b, id, price, received, contact, account, actor).value;
    ProductSwapSum(b, t, id, SalesIn(period, now));
    ProductSwapSum(b, t, id, CostIn(period, now));
    ProductSwapSum(b, t, id, CountIn(period, now));
  }

  /**
   * A receipt adds the product's stock value; a posted supplier leg moves the
   * supplier by paid minus cost and any account by minus paid. A fully posted,
   * paid purchase of an in-stock product leaves net worth where it was.
   */
  lemma ReceiveMovesNetWorth(b: Books, d: Draft, actor: Actor, at: Moment, sameDayCount: nat,
                             supplier: Option<int>, paid: int, account: Option<int>)
    requires ValidDate(at.utc)
    requires Receive(b, d, actor, at, sameDayCount, supplier, paid, account).Ok?
    ensures var r := Receive(b, d, actor, at, sameDayCount, supplier, paid, account).value;
            NetWorth(r.books)
            == NetWorth(b) + StockValue(ProductOf(r.books, r.product))
               + (if r.leg == Posted then paid - d.costPrice - (if PaysFrom(paid, account) then paid else 0) else 0)
    ensures var r := Receive(b, d, actor, at, sameDayCount, supplier, paid, account).value;
            r.leg == Posted && PaysFrom(paid, account) && d.status == InStock ==> NetWorth(r.books) == NetWorth(b)
  {
    var r := Receive(b, d, actor, at, sameDayCount, supplier, paid, account).value;
    var t := r.books;
    var p := ProductOf(t, r.product);
    assert t.products == b.products + [p];
    SumAppend(b.products, p, StockValue);
    if r.leg == Posted {
      ContactsMovedSum(b, t, supplier.value, paid - d.costPrice);
      if PaysFrom(paid, account) {
        AccountsMovedSum(b, t, account.value, -paid);
      }
    }
  }

  /** A lease takes the product out of stock and brings in the deposit when there is an account for it. */
  lemma CreateLeaseMovesNetWorth(b: Books, productId: int, contactId: int, deposit: int, startDate: Date,
                                 rentPrice: int, depreciation: int)
    requires CreateLease(b, productId, contactId, deposit, startDate, rentPrice, depreciation).Ok?
    ensures NetWorth(CreateLease(b, productId, contactId, deposit, startDate, rentPrice, depreciation).value)
            == NetWorth(b) - ProductOf(b, productId).costPrice
               + (if deposit > 0 && |b.accounts| > 0 then deposit else 0)
  {
    var t := CreateLease(b, productId, contactId, deposit, startDate, rentPrice, depreciation).value;
    ProductSwapSum(b, t, productId, StockValue);
    if deposit > 0 && |b.accounts| > 0 {
      AccountsMovedSum(b, t, 1, deposit);
    }
  }

  /** Settling puts the product back into stock at the end value; no cash moves. */
  lemma SettleMovesNetWorth(b: Books, contractId: int, endValue: Option<int>)
    requires Settle(b, contractId, endValue).Ok?
    ensures NetWorth(Settle(b, contractId, endValue).value)
            == NetWorth(b) - StockValue(ProductOf(b, ContractOf(b, contractId).product)) + endValue.value
  {
    var t := Settle(b, contractId, endValue).value;
    ProductSwapSum(b, t, ContractOf(b, contractId).product, StockValue);
  }

  /**
   * Settling does not look at whether the contract is still active, so settling
   * one whose product has since been sold takes that sale out of the profit report.
   */
  lemma SettleMovesProfit(b: Books, contractId: int, endValue: Option<int>, period: Period, now: Date)
    requires Settle(b, contractId, endValue).Ok?
    ensures var p := ProductOf(b, ContractOf(b, contractId).product);
            Profit(Settle(b, contractId, endValue).value, period, now).grossProfit
            == Profit(b, period, now).grossProfit
               - (if Reported(p, period, now) then p.soldPrice.GetOr(0) - p.costPrice else 0)
  {
    var t := Settle(b, contractId, endValue).value;
    var id := ContractOf(b, contractId).product;
    ProductSwapSum(b, t, id, SalesIn(period, now));
    ProductSwapSum(b, t, id, CostIn(period, now));
  }
}

=== FILE: invariants.dfy ===
/**
 * Every posting keeps the books `Valid`: zencodes and contact names stay
 * unique, every product stays in its saved form, and contracts and
 * transactions only point at records that exist.
 */
module Invariants {
  import opened Results
  import opened Models
  import opened Store
  import opened Postings

  lemma ReceiveKeepsValid(b: Books, d: Draft, actor: Actor, at: Moment, sameDayCount: nat,
                          supplier: Option<int>, paid: int, account: Option<int>)
    requires Valid(b) && ValidDate(at.utc)
    requires Receive(b, d, actor, at, sameDayCount, supplier, paid, account).Ok?
    ensures Valid(Receive(b, d, actor, at, sameDayCount, supplier, paid, account).value.books)
  {
    var r := Receive(b, d, actor, at, sameDayCount, supplier, paid, account).value;
    var t := r.books;
    var n := |b.products|;
    var code := IssuedCode(d, actor, at.utc, sameDayCount);
    assert t.products[n].zencode == code;
    forall i, j | 0 <= i < j < |t.products|
      ensures t.products[i].zencode != t.products[j].zencode
    {
      assert t.products[i] == b.products[i];
      if j < n {
        assert t.products[j] == b.products[j];
      } else {
        assert !ZencodeTaken(b, code);
      }
    }
    forall k | 0 <= k < |t.products|
      ensures Saved(t.products[k])
    {
      if k < n {
        assert t.products[k] == b.products[k];
      }
    }
    forall i, j | 0 <= i < j < |t.contacts|
      ensures t.contacts[i].name != t.contacts[j].name
    {
      assert t.contacts[i].name == b.contacts[i].name;
      assert t.contacts[j].name == b.contacts[j].name;
    }
    forall k | 0 <= k < |t.products|
      ensures FitsColumns(t.products[k])
    {
      if k < n {
        assert t.products[k] == b.products[k];
      }
    }
    forall k | 0 <= k < |t.contacts|
      ensures ContactFits(t.contacts[k])
    {
      assert ContactFits(b.contacts[k]);
      assert t.contacts[k] == b.contacts[k].(balance := t.contacts[k].balance);
    }
    if r.leg == Posted && PaysFrom(paid, account) {
      var tx := t.ledger[|b.ledger|];
      assert t.ledger == b.ledger + [tx];
      assert |tx.remark| <= RemarkWidth;
      forall k | 0 <= k < |t.ledger|
        ensures |t.ledger[k].remark| <= RemarkWidth
      {
        if k < |b.ledger| {
          assert t.ledger[k] == b.ledger[k];
        }
      }
    } else {
      assert t.ledger == b.ledger;
    }
  }

  lemma SellKeepsValid(b: Books, id: int, price: int, received: int, contact: Option<int>, account: Option<int>,
                       actor: Actor)
    requires Valid(b)
    requires Sell(b, id, price, received, contact, account, actor).Ok?
    ensures Valid(Sell(b, id, price, received, contact, account, actor).value)
  {
    var t := Sell(b, id, price, received, contact, account, actor).value;
    SavedAfterLedgerChange(ProductOf(b, id), Sold, ProductOf(b, id).costPrice, Some(price));
    ProductEditKeepsValid(b, t, id);
    forall i, j | 0 <= i < j < |t.contacts|
      ensures t.contacts[i].name != t.contacts[j].name
    {
      assert t.contacts[i].name == b.contacts[i].name;
      assert t.contacts[j].name == b.contacts[j].name;
    }
  }

  lemma CreateLeaseKeepsValid(b: Books, productId: int, contactId: int, deposit: int, startDate: Date,
                              rentPrice: int, depreciation: int)
    requires Valid(b)
    requires CreateLease(b, productId, contactId, deposit, startDate, rentPrice, depreciation).Ok?
    ensures Valid(CreateLease(b, productId, contactId, deposit, startDate, rentPrice, depreciation).value)
  {
    var t := CreateLease(b, productId, contactId, deposit, startDate, rentPrice, depreciation).value;
    var p := ProductOf(b, productId);
    SavedAfterLedgerChange(p, Rented, p.costPrice, p.soldPrice);
    ProductEditKeepsValid(b, t, productId);
  }

  lemma SettleKeepsValid(b: Books, contractId: int, endValue: Option<int>)
    requires Valid(b)
    requires Settle(b, contractId, endValue).Ok?
    ensures Valid(Settle(b, contractId, endValue).value)
  {
    var t := Settle(b, contractId, endValue).value;
    var id := ContractOf(b, contractId).product;
    var p := ProductOf(b, id);
    SavedAfterLedgerChange(p, InStock, endValue.value, p.soldPrice);
    ProductEditKeepsValid(b, t, id);
    forall k | 0 <= k < |t.contracts|
      ensures HasProduct(t, t.contracts[k].product) && HasContact(t, t.contracts[k].contact)
    {
      assert t.contracts[k].product == b.contracts[k].product;
      assert t.contracts[k].contact == b.contracts[k].contact;
    }
  }

  lemma AddContactKeepsValid(b: Books, name: string, phone: string, address: string)
    requires Valid(b)
    requires AddContact(b, name, phone, address).Ok?
    ensures Valid(AddContact(b, name, phone, address).value)
  {
  }

  /**
   * Changing one product's status, prices or (saved) name, while keeping its
   * code, keeps the codes unique and every product saved.
   */
  lemma ProductEditKeepsValid(b: Books, t: Books, id: int)
    requires Valid(b) && HasProduct(b, id) && OtherProductsKept(b, t, id)
    requires ProductOf(t, id).zencode == ProductOf(b, id).zencode && Saved(ProductOf(t, id))
    ensures ZencodesUnique(t.products) && AllSaved(t.products)
  {
    forall k | 0 <= k < |t.products|
      ensures t.products[k].zencode == b.products[k].zencode && Saved(t.products[k])
    {
      if k != id - 1 {
        assert t.products[k] == b.products[k];
      }
    }
  }
}

=== FILE: models.dfy ===
/**
 * The records of core/models.py: capital accounts, contacts, products, rental
 * contracts and ledger transactions, with their enumerations, field defaults
 * and the whole-machine name derivation that `Product.save` performs.
 *
 * Money is held as integer cents (every money field is a two-place decimal).
 * Record ids are positions: the record with id k is element k - 1 of its
 * sequence, so ids start at 1 and 0 never names a record.
 */
module Models {
  import opened Results
  import opened Text

  /** Product.category: whole machine, loose part, monitor, miscellaneous. */
  datatype Category = ZJ | SJ | XS | ZX {
    /** The two-letter code stored in the database and written into a zencode. */
    function Code(): (c: string)
      ensures |c| == 2
      ensures CategoryFromCode(c) == Some(this)
    {
      match this
      case ZJ => "ZJ"
      case SJ => "SJ"
      case XS => "XS"
      case ZX => "ZX"
    }
  }

  function CategoryFromCode(c: string): Option<Category> {
    if c == "ZJ" then Some(ZJ)
    else if c == "SJ" then Some(SJ)
    else if c == "XS" then Some(XS)
    else if c == "ZX" then Some(ZX)
    else None
  }

  /** Product.status: `IN_STOCK`, `RENTED`, `TRANSIT`, `SOLD`, `REPAIR`. */
  datatype Status = InStock | Rented | Transit | Sold | Repair

  /** Transaction.type: `SALE`, `RENT`, `BUY`, `OTHER`. */
  datatype TxType = Sale | Rent | Buy | Other

  /** A calendar date; the clock that produces it is outside the model. */
  datatype Date = Date(year: nat, month: nat, day: nat)

  predicate ValidDate(d: Date) {
    1 <= d.year <= 9999 && 1 <= d.month <= 12 && 1 <= d.day <= 31
  }

  /**
   * When something happened, as two calendar dates: `utc`, the date of
   * `timezone.now()` and of a stored timestamp read back, and `local`, the date
   * in the configured zone (Asia/Shanghai, UTC+8), which date lookups such as
   * `created_at__month` compare against.
   */
  datatype Moment = Moment(utc: Date, local: Date)

  /** The signed-in user making a request, or an anonymous caller. */
  datatype Actor = Anonymous | Staff(id: nat, initials: string)

  /** The initials a zencode carries: the user's own, or `AD` when the caller has none. */
  function Initials(a: Actor): string {
    match a
    case Anonymous => "AD"
    case Staff(_, initials) => initials
  }

  /** The operator recorded on a transaction: the user when signed in, else nobody. */
  function OperatorOf(a: Actor): Option<int> {
    match a
    case Anonymous => None
    case Staff(id, _) => Some(id)
  }

  datatype CapitalAccount = CapitalAccount(name: string, initialBalance: int, currentBalance: int)

  /** A customer or supplier; a positive balance is owed to us, a negative one is owed by us. */
  datatype Contact = Contact(name: string, phone: string, address: string, balance: int)

  datatype Product = Product(
    zencode: string,
    name: string,
    category: Category,
    cpu: string,
    gpu: string,
    ram: string,
    disk: string,
    note: string,
    costPrice: int,
    peerPrice: int,
    retailPrice: int,
    soldPrice: Option<int>,
    status: Status,
    created: Moment)

  /** The fields of RentalContract that the model keeps (`rent_strategy` and `initial_value` are gone). */
  datatype RentalContract = RentalContract(
    contact: int,
    product: int,
    operator: Option<int>,
    startDate: Date,
    duration: int,
    endDate: Option<Date>,
    depositAmount: int,
    rentPrice: int,
    depreciationMonthly: int,
    totalAmount: int,
    paidAmount: int,
    expectedProfit: int,
    isActive: bool)

  /** One immutable ledger record; links are ids of the contact, product and account it touches. */
  datatype Transaction = Transaction(
    contact: Option<int>,
    product: Option<int>,
    account: Option<int>,
    amount: int,
    kind: TxType,
    operator: Option<int>,
    remark: string)

  /** A new contact owes and is owed nothing. */
  function NewContact(name: string, phone: string, address: string): (c: Contact)
    ensures c.name == name && c.balance == 0
  {
    Contact(name, phone, address, 0)
  }

  /** A new rental contract is active, with nothing billed or paid and a one-month term. */
  function NewContract(contact: int, product: int, startDate: Date, deposit: int,
                       rentPrice: int, depreciation: int): (c: RentalContract)
    ensures c.isActive && c.duration == 1 && c.endDate == None
    ensures c.contact == contact && c.product == product && c.depositAmount == deposit
    ensures c.totalAmount == 0 && c.paidAmount == 0 && c.expectedProfit == 0
  {
    RentalContract(contact, product, None, startDate, 1, None, deposit, rentPrice, depreciation, 0, 0, 0, true)
  }

  // ---- Product.save: the name of a whole machine ----

  /** The GPU labels that mean "integrated graphics" rather than a card. */
  const IntegratedGpuLabels: seq<string> := ["核显", "核显主机"]

  /** The suffix appended to an integrated-graphics machine that has a CPU. */
  const IntegratedMachine: string := "核显主机"

  predicate HasDedicatedGpu(gpu: string) {
    gpu != "" && gpu !in IntegratedGpuLabels
  }

  function IfPresent(field: string): seq<string> {
    if field != "" then [field] else []
  }

  /** The non-empty fields, in their order. */
  function NonBlank(fields: seq<string>): (parts: seq<string>)
    ensures forall k :: 0 <= k < |parts| ==> parts[k] != ""
  {
    if fields == [] then [] else IfPresent(fields[0]) + NonBlank(fields[1..])
  }

  lemma NonBlankCons(x: string, rest: seq<string>)
    ensures NonBlank([x] + rest) == IfPresent(x) + NonBlank(rest)
  {
    assert ([x] + rest)[1..] == rest;
  }

  /** The pieces `Product.save` collects for a whole machine, in the order it appends them. */
  function NameParts(cpu: string, ram: string, disk: string, gpu: string, note: string): (parts: seq<string>)
    ensures forall k :: 0 <= k < |parts| ==> parts[k] != ""
  {
    var hardware := IfPresent(cpu) + IfPresent(ram) + IfPresent(disk);
    if HasDedicatedGpu(gpu) then
      hardware + [gpu] + IfPresent(note)
    else
      hardware + IfPresent(note) + (if cpu != "" then [IntegratedMachine] else [])
  }

  /** The non-empty fields among four, spelled out. */
  lemma NonBlankFour(a: string, b: string, c: string, d: string)
    ensures NonBlank([a, b, c, d]) == IfPresent(a) + IfPresent(b) + IfPresent(c) + IfPresent(d)
  {
    assert NonBlank([d]) == IfPresent(d) by {
      assert [d] == [d] + [];
      NonBlankCons(d, []);
    }
    assert NonBlank([c, d]) == IfPresent(c) + IfPresent(d) by {
      assert [c, d] == [c] + [d];
      NonBlankCons(c, [d]);
    }
    assert NonBlank([b, c, d]) == IfPresent(b) + (IfPresent(c) + IfPresent(d)) by {
      assert [b, c, d] == [b] + [c, d];
      NonBlankCons(b, [c, d]);
    }
    assert [a, b, c, d] == [a] + [b, c, d];
    NonBlankCons(a, [b, c, d]);
  }

  /** With a graphics card the name lists every non-empty field among cpu, ram, disk, gpu, note, in that order. */
  lemma NamePartsWithCard(cpu: string, ram: string, disk: string, gpu: string, note: string)
    requires HasDedicatedGpu(gpu)
    ensures NameParts(cpu, ram, disk, gpu, note) == NonBlank([cpu, ram, disk, gpu, note])
  {
    NonBlankFour(ram, disk, gpu, note);
    assert [cpu, ram, disk, gpu, note] == [cpu] + [ram, disk, gpu, note];
    NonBlankCons(cpu, [ram, disk, gpu, note]);
  }

  /**
   * Without a graphics card the name lists every non-empty field among cpu, ram, disk,
   * note, then the integrated-graphics suffix exactly when there is a CPU.
   */
  lemma NamePartsIntegrated(cpu: string, ram: string, disk: string, gpu: string, note: string)
    requires !HasDedicatedGpu(gpu)
    ensures NameParts(cpu, ram, disk, gpu, note)
              == NonBlank([cpu, ram, disk, note]) + (if cpu != "" then [IntegratedMachine] else [])
  {
    NonBlankFour(cpu, ram, disk, note);
  }

  function MachineParts(p: Product): seq<string> {
    NameParts(p.cpu, p.ram, p.disk, p.gpu, p.note)
  }

  /**
   * `Product.save`: a whole machine saved without a name gets one built from its
   * parts joined by single spaces; every other product is stored as given.
   */
  function Save(p: Product): (r: Product)
    ensures r == p.(name := r.name)
    ensures !(p.category == ZJ && p.name == "") ==> r == p
    ensures p.category == ZJ && p.name == "" ==> r.name == JoinWithSpaces(MachineParts(p))
    ensures r.name == "" <==> p.name == "" && (p.category != ZJ || MachineParts(p) == [])
  {
    if p.category == ZJ && p.name == "" then
      JoinEmptyIff(MachineParts(p));
      p.(name := JoinWithSpaces(MachineParts(p)))
    else
      p
  }

  /** A product as the database holds it: saving it again changes nothing. */
  predicate Saved(p: Product) {
    Save(p) == p
  }

  /** Saving twice is saving once, so every stored product is `Saved`. */
  lemma SaveIdempotent(p: Product)
    ensures Saved(Save(p))
  {
  }

  /** Status, price and sold-price changes never disturb a stored name. */
  lemma SavedAfterLedgerChange(p: Product, status: Status, costPrice: int, soldPrice: Option<int>)
    requires Saved(p)
    ensures Saved(p.(status := status, costPrice := costPrice, soldPrice := soldPrice))
  {
  }

  /** When the parts are words, the derived name splits back into exactly those parts. */
  lemma DerivedNameSplits(p: Product)
    requires p.category == ZJ && p.name == ""
    requires forall k :: 0 <= k < |MachineParts(p)| ==> ' ' !in MachineParts(p)[k]
    ensures SplitOnSpaces(Save(p).name) == MachineParts(p)
  {
    SplitJoin(MachineParts(p));
  }

  // ---- column widths ----

  /** The `max_length` of Product's text columns; cpu, gpu, ram and disk share one width. */
  const ZencodeWidth: nat := 20
  const ProductNameWidth: nat := 200
  const PartWidth: nat := 50
  const NoteWidth: nat := 100

  /** The `max_length` of CapitalAccount.name. */
  const AccountNameWidth: nat := 50

  /** The `max_length` of Transaction.remark. */
  const RemarkWidth: nat := 200

  /** The `max_length` of Contact's text columns. */
  const ContactNameWidth: nat := 50
  const PhoneWidth: nat := 20
  const AddressWidth: nat := 100

  /** Every text column of a product is within its `max_length`, so the database stores it. */
  predicate FitsColumns(p: Product) {
    && |p.zencode| <= ZencodeWidth
    && |p.name| <= ProductNameWidth
    && |p.cpu| <= PartWidth && |p.gpu| <= PartWidth && |p.ram| <= PartWidth && |p.disk| <= PartWidth
    && |p.note| <= NoteWidth
  }

  /** A contact's name is given and every text column is within its `max_length`. */
  predicate ContactFits(c: Contact) {
    && 1 <= |c.name| <= ContactNameWidth
    && |c.phone| <= PhoneWidth
    && |c.address| <= AddressWidth
  }

  /**
   * A whole machine whose every part is as wide as its column allows derives a
   * 304-character name: the fields pass their own checks, the name does not.
   */
  lemma DerivedNameOverflows(p: Product)
    requires p.category == ZJ && p.name == "" && HasDedicatedGpu(p.gpu)
    requires |p.cpu| == PartWidth && |p.ram| == PartWidth && |p.disk| == PartWidth && |p.gpu| == PartWidth
    requires |p.note| == NoteWidth
    ensures |Save(p).name| == 4 * PartWidth + NoteWidth + 4 > ProductNameWidth
    ensures !FitsColumns(Save(p))
  {
    var parts := [p.cpu, p.ram, p.disk, p.gpu, p.note];
    assert MachineParts(p) == parts;
    assert TotalLength(parts) == 4 * PartWidth + NoteWidth by {
      assert TotalLength([p.note]) == NoteWidth by { assert [p.note][1..] == []; }
      assert TotalLength([p.gpu, p.note]) == PartWidth + NoteWidth by {
        assert [p.gpu, p.note][1..] == [p.note];
      }
      assert TotalLength([p.disk, p.gpu, p.note]) == 2 * PartWidth + NoteWidth by {
        assert [p.disk, p.gpu, p.note][1..] == [p.gpu, p.note];
      }
      assert TotalLength([p.ram, p.disk, p.gpu, p.note]) == 3 * PartWidth + NoteWidth by {
        assert [p.ram, p.disk, p.gpu, p.note][1..] == [p.disk, p.gpu, p.note];
      }
      assert parts[1..] == [p.ram, p.disk, p.gpu, p.note];
    }
  }
}

=== FILE: postings.dfy ===
/**
 * The stock-to-ledger posting rules of core/views.py: receiving a product
 * (`ProductViewSet.perform_create`), selling it (`ProductViewSet.sell`),
 * leasing it out (`RentalViewSet.create_lease`), settling a lease
 * (`RentalViewSet.settle`), and creating a contact (`ContactViewSet`).
 *
 * Each posting is a pure step from the books to `Ok(new books)` or to
 * `Err(reason)`, where an error means nothing was written. Request fields
 * that Python tests for truth (`if not contact_id`) are `Option<int>`:
 * absent and zero are both false.
 */
module Postings {
  import opened Results
  import opened Text
  import opened Models
  import opened Zencode
  import opened Store

  const PurchaseRemark: string := "采购实付: "
  const SaleRemark: string := "销售收款: "
  const DepositRemark: string := "租赁押金: "

  /** The product fields a receipt form may fill in; a blank `zencode` asks for a generated one. */
  datatype Draft = Draft(
    zencode: string,
    name: string,
    category: Category,
    cpu: string,
    gpu: string,
    ram: string,
    disk: string,
    note: string,
    costPrice: int,
    peerPrice: int,
    retailPrice: int,
    soldPrice: Option<int>,
    status: Status)

  /**
   * A form that sets nothing but the category and the cost: every other field
   * takes its model default (blank text, zero prices, no sold price, IN_STOCK).
   */
  function BlankDraft(category: Category, costPrice: int): Draft {
    Draft("", "", category, "", "", "", "", "", costPrice, 0, 0, None, InStock)
  }

  /** A payment leg runs only for a positive amount and a named account. */
  predicate PaysFrom(amount: int, account: Option<int>) {
    amount > 0 && Truthy(account)
  }

  // ---- receive ----

  /** The code the product is stored under: the one given, or a generated one when it is blank. */
  function IssuedCode(d: Draft, actor: Actor, today: Date, sameDayCount: nat): string
    requires ValidDate(today)
  {
    if d.zencode == "" then GenerateZencode(today, Initials(actor), d.category, sameDayCount) else d.zencode
  }

  predicate ZencodeTaken(b: Books, code: string) {
    exists k :: 0 <= k < |b.products| && b.products[k].zencode == code
  }

  /** The product as the receipt form fills it in, under `code` and received `at`, before `save()`. */
  function Unsaved(d: Draft, code: string, at: Moment): Product {
    Product(code, d.name, d.category, d.cpu, d.gpu, d.ram, d.disk, d.note,
            d.costPrice, d.peerPrice, d.retailPrice, d.soldPrice, d.status, at)
  }

  /** What became of the supplier's side of a receipt. */
  datatype LedgerLeg =
    | NoSupplier
    | Posted
    | Swallowed(error: Error)  // the lookup failed; the failure is logged and the product kept

  datatype Receipt = Receipt(books: Books, product: int, leg: LedgerLeg)

  /**
   * Receive a product. The product is stored first and stays stored; only a
   * text field wider than its column (the serializer's check on the form, or
   * the database's on the derived name and generated code) or a code that is
   * already taken (the unique constraint) refuses the request.
   * With a supplier (present and not 0) the ledger leg follows: a paid amount
   * above zero with an account is booked as a BUY transaction out of that
   * account, and the supplier's balance drops by cost minus paid. A missing
   * supplier or account, or a BUY remark wider than its column, abandons the
   * leg without undoing the product.
   */
  function Receive(b: Books, d: Draft, actor: Actor, at: Moment, sameDayCount: nat,
                   supplier: Option<int>, paid: int, account: Option<int>): (r: Result<Receipt, Error>)
    requires ValidDate(at.utc)
    ensures var code := IssuedCode(d, actor, at.utc, sameDayCount);
            r.Ok? <==> FitsColumns(Save(Unsaved(d, code, at))) && !ZencodeTaken(b, code)
    ensures !FitsColumns(Save(Unsaved(d, IssuedCode(d, actor, at.utc, sameDayCount), at))) ==>
              r == Err(FieldTooLong)
    ensures r.Err? && FitsColumns(Save(Unsaved(d, IssuedCode(d, actor, at.utc, sameDayCount), at))) ==>
              r == Err(DuplicateZencode)
    ensures r.Ok? ==>
              && r.value.product == |b.products| + 1
              && |r.value.books.products| == |b.products| + 1
              && r.value.books.products[..|b.products|] == b.products
              && r.value.books.contracts == b.contracts
    ensures r.Ok? ==>
              var p := ProductOf(r.value.books, r.value.product);
              && p == Save(Unsaved(d, IssuedCode(d, actor, at.utc, sameDayCount), at))
              && p == Unsaved(d, IssuedCode(d, actor, at.utc, sameDayCount), at).(name := p.name)
              && p.name == (if d.category == ZJ && d.name == ""
                            then JoinWithSpaces(NameParts(d.cpu, d.ram, d.disk, d.gpu, d.note))
                            else d.name)
              && Saved(p) && FitsColumns(p)
    ensures r.Ok? ==> (r.value.leg == NoSupplier <==> !Truthy(supplier))
    ensures (r.Ok? && Truthy(supplier) && HasContact(b, supplier.value)
             && (PaysFrom(paid, account) ==>
                   HasAccount(b, account.value)
                   && |PurchaseRemark + ProductOf(r.value.books, r.value.product).name| <= RemarkWidth)) ==>
              r.value.leg == Posted
    ensures (r.Ok? && Truthy(supplier) && HasContact(b, supplier.value)
             && PaysFrom(paid, account) && HasAccount(b, account.value)
             && |PurchaseRemark + ProductOf(r.value.books, r.value.product).name| > RemarkWidth) ==>
              r.value.leg == Swallowed(FieldTooLong)
    ensures r.Ok? && Truthy(supplier) && !HasContact(b, supplier.value) ==>
              r.value.leg == Swallowed(ContactNotFound)
    ensures (r.Ok? && Truthy(supplier) && HasContact(b, supplier.value)
             && PaysFrom(paid, account) && !HasAccount(b, account.value)) ==>
              r.value.leg == Swallowed(AccountNotFound)
    ensures r.Ok? && r.value.leg != Posted ==>
              var t := r.value.books;
              t.contacts == b.contacts && t.accounts == b.accounts && t.ledger == b.ledger
    ensures r.Ok? && r.value.leg == Posted ==>
              Truthy(supplier) && ContactsMoved(b, r.value.books, supplier.value, paid - d.costPrice)
    ensures r.Ok? && r.value.leg == Posted && PaysFrom(paid, account) ==>
              var t := r.value.books;
              && AccountsMoved(b, t, account.value, -paid)
              && t.ledger == b.ledger + [Transaction(supplier, Some(r.value.product), account, paid, Buy,
                                                     OperatorOf(actor),
                                                     PurchaseRemark + ProductOf(t, r.value.product).name)]
    ensures r.Ok? && r.value.leg == Posted && !PaysFrom(paid, account) ==>
              r.value.books.accounts == b.accounts && r.value.books.ledger == b.ledger
  {
    var code := IssuedCode(d, actor, at.utc, sameDayCount);
    var drafted := Unsaved(d, code, at);
    var p := Save(drafted);
    if !FitsColumns(p) then Err(FieldTooLong)
    else if ZencodeTaken(b, code) then Err(DuplicateZencode)
    else
      SaveIdempotent(drafted);
      var id := |b.products| + 1;
      var b1 := b.(products := b.products + [p]);
      assert b1.products[..|b.products|] == b.products;
      if !Truthy(supplier) then Ok(Receipt(b1, id, NoSupplier))
      else if !HasContact(b1, supplier.value) then Ok(Receipt(b1, id, Swallowed(ContactNotFound)))
      else if PaysFrom(paid, account) && !HasAccount(b1, account.value) then
        Ok(Receipt(b1, id, Swallowed(AccountNotFound)))
      else if PaysFrom(paid, account) && |PurchaseRemark + p.name| > RemarkWidth then
        Ok(Receipt(b1, id, Swallowed(FieldTooLong)))
      else
        var b2 :=
          if PaysFrom(paid, account) then
            MoveAccount(Record(b1, Transaction(supplier, Some(id), account, paid, Buy, OperatorOf(actor),
                                               PurchaseRemark + p.name)),
                        account.value, -paid)
          else b1;
        // The source skips a zero debt; moving a balance by zero is the same.
        Ok(Receipt(MoveContact(b2, supplier.value, paid - p.costPrice), id, Posted))
  }

  /**
   * A receipt from a form that sets only the category and the cost stores the
   * model defaults: IN_STOCK, zero peer and retail prices, no sold price, an
   * empty name (a whole machine with no parts has nothing to be named after)
   * and the generated code.
   */
  lemma BlankReceiptDefaults(b: Books, category: Category, costPrice: int, actor: Actor, at: Moment,
                             sameDayCount: nat, supplier: Option<int>, paid: int, account: Option<int>)
    requires ValidDate(at.utc)
    requires Receive(b, BlankDraft(category, costPrice), actor, at, sameDayCount, supplier, paid, account).Ok?
    ensures var r := Receive(b, BlankDraft(category, costPrice), actor, at, sameDayCount, supplier, paid, account).value;
            var p := ProductOf(r.books, r.product);
            && p.status == InStock && p.soldPrice == None && p.peerPrice == 0 && p.retailPrice == 0
            && p.category == category && p.costPrice == costPrice && p.name == ""
            && p.zencode == GenerateZencode(at.utc, Initials(actor), category, sameDayCount)
  {
  }

  // ---- sell ----

  /**
   * Sell an in-stock product to a contact. The product becomes SOLD at `price`;
   * a positive amount received into a named account is booked as a SALE
   * transaction into that account; the contact's balance rises by whatever of
   * the price was not received. A missing contact or account, or a SALE remark
   * wider than its column, rolls all of it back.
   */
  function Sell(b: Books, id: int, price: int, received: int, contact: Option<int>, account: Option<int>,
                actor: Actor): (r: Result<Books, Error>)
    ensures !HasProduct(b, id) ==> r == Err(ProductNotFound)
    ensures HasProduct(b, id) && !Truthy(contact) ==> r == Err(ContactRequired)
    ensures HasProduct(b, id) && Truthy(contact) && ProductOf(b, id).status != InStock ==> r == Err(NotInStock)
    ensures (HasProduct(b, id) && Truthy(contact) && ProductOf(b, id).status == InStock
             && !HasContact(b, contact.value)) ==> r == Err(ContactNotFound)
    ensures (HasProduct(b, id) && Truthy(contact) && ProductOf(b, id).status == InStock
             && HasContact(b, contact.value) && PaysFrom(received, account) && !HasAccount(b, account.value)) ==>
              r == Err(AccountNotFound)
    ensures (HasProduct(b, id) && Truthy(contact) && ProductOf(b, id).status == InStock
             && HasContact(b, contact.value) && PaysFrom(received, account) && HasAccount(b, account.value)
             && |SaleRemark + Save(ProductOf(b, id)).name| > RemarkWidth) ==>
              r == Err(FieldTooLong)
    ensures r.Ok? <==>
              && HasProduct(b, id) && Truthy(contact) && ProductOf(b, id).status == InStock
              && HasContact(b, contact.value)
              && (PaysFrom(received, account) ==>
                    HasAccount(b, account.value) && |SaleRemark + Save(ProductOf(b, id)).name| <= RemarkWidth)
    ensures r.Ok? ==> OtherProductsKept(b, r.value, id)
    ensures r.Ok? ==>
              var q := ProductOf(r.value, id);
              && q.status == Sold && q.soldPrice == Some(price)
              && q == ProductOf(b, id).(status := Sold, soldPrice := Some(price), name := q.name)
              && (Saved(ProductOf(b, id)) ==> q.name == ProductOf(b, id).name)
    ensures r.Ok? ==> ContactsMoved(b, r.value, contact.value, price - received)
    ensures r.Ok? && PaysFrom(received, account) ==>
              && AccountsMoved(b, r.value, account.value, received)
              && r.value.ledger == b.ledger + [Transaction(contact, Some(id), account, received, Sale,
                                                           OperatorOf(actor),
                                                           SaleRemark + ProductOf(r.value, id).name)]
              && AccountOf(r.value, account.value).currentBalance + ContactOf(r.value, contact.value).balance
                 == AccountOf(b, account.value).currentBalance + ContactOf(b, contact.value).balance + price
    ensures r.Ok? && !PaysFrom(received, account) ==> r.value.accounts == b.accounts && r.value.ledger == b.ledger
    ensures r.Ok? ==> r.value.contracts == b.contracts
  {
    if !HasProduct(b, id) then Err(ProductNotFound)
    else if !Truthy(contact) then Err(ContactRequired)
    else if ProductOf(b, id).status != InStock then Err(NotInStock)
    else if !HasContact(b, contact.value) then Err(ContactNotFound)
    else if PaysFrom(received, account) && !HasAccount(b, account.value) then Err(AccountNotFound)
    else
      var before := ProductOf(b, id);
      var q := Save(before.(status := Sold, soldPrice := Some(price)));
      if PaysFrom(received, account) && |SaleRemark + q.name| > RemarkWidth then Err(FieldTooLong)
      else
        var b1 := PutProduct(b, id, q);
        var b2 :=
          if PaysFrom(received, account) then
            MoveAccount(Record(b1, Transaction(contact, Some(id), account, received, Sale, OperatorOf(actor),
                                               SaleRemark + q.name)),
                        account.value, received)
          else b1;
        Ok(MoveContact(b2, contact.value, price - received))
  }

  // ---- lease ----

  /**
   * Open a lease on an in-stock product: a new active contract, the product
   * RENTED, and a positive deposit booked as a RENT transaction into the first
   * capital account when one exists; a RENT remark wider than its column rolls
   * it all back. This is what `create_lease` sets out to
   * do with the contract fields the model has; see `CreateLeaseAsWritten`.
   */
  function CreateLease(b: Books, productId: int, contactId: int, deposit: int, startDate: Date,
                       rentPrice: int, depreciation: int): (r: Result<Books, Error>)
    ensures !HasProduct(b, productId) ==> r == Err(ProductNotFound)
    ensures HasProduct(b, productId) && !HasContact(b, contactId) ==> r == Err(ContactNotFound)
    ensures HasProduct(b, productId) && HasContact(b, contactId) && ProductOf(b, productId).status != InStock ==>
              r == Err(NotInStock)
    ensures (HasProduct(b, productId) && HasContact(b, contactId) && ProductOf(b, productId).status == InStock
             && deposit > 0 && |b.accounts| > 0 && |DepositRemark + ProductOf(b, productId).zencode| > RemarkWidth) ==>
              r == Err(FieldTooLong)
    ensures r.Ok? <==>
              && HasProduct(b, productId) && HasContact(b, contactId) && ProductOf(b, productId).status == InStock
              && (deposit > 0 && |b.accounts| > 0 ==> |DepositRemark + ProductOf(b, productId).zencode| <= RemarkWidth)
    ensures r.Ok? ==> OtherProductsKept(b, r.value, productId)
    ensures r.Ok? ==>
              var q := ProductOf(r.value, productId);
              && q.status == Rented
              && q == ProductOf(b, productId).(status := Rented, name := q.name)
              && (Saved(ProductOf(b, productId)) ==> q.name == ProductOf(b, productId).name)
    ensures r.Ok? ==>
              && r.value.contracts == b.contracts + [NewContract(contactId, productId, startDate, deposit,
                                                                 rentPrice, depreciation)]
              && r.value.contracts[|b.contracts|].isActive
              && r.value.contacts == b.contacts
    ensures r.Ok? && deposit > 0 && |b.accounts| > 0 ==>
              && AccountsMoved(b, r.value, 1, deposit)
              && r.value.ledger == b.ledger + [Transaction(Some(contactId), Some(productId), Some(1), deposit, Rent,
                                                           None, DepositRemark + ProductOf(b, productId).zencode)]
    ensures r.Ok? && !(deposit > 0 && |b.accounts| > 0) ==> r.value.accounts == b.accounts && r.value.ledger == b.ledger
  {
    if !HasProduct(b, productId) then Err(ProductNotFound)
    else if !HasContact(b, contactId) then Err(ContactNotFound)
    else if ProductOf(b, productId).status != InStock then Err(NotInStock)
    else if deposit > 0 && |b.accounts| > 0 && |DepositRemark + ProductOf(b, productId).zencode| > RemarkWidth then
      Err(FieldTooLong)
    else
      var p := ProductOf(b, productId);
      var c := NewContract(contactId, productId, startDate, deposit, rentPrice, depreciation);
      var b1 := PutProduct(b.(contracts := b.contracts + [c]), productId, Save(p.(status := Rented)));
      if deposit > 0 && |b.accounts| > 0 then
        Ok(MoveAccount(Record(b1, Transaction(Some(contactId), Some(productId), Some(1), deposit, Rent, None,
                                              DepositRemark + p.zencode)),
                       1, deposit))
      else Ok(b1)
  }

  /** The two keyword arguments `create_lease` passes that RentalContract no longer declares. */
  const RemovedContractFields: seq<string> := ["rent_strategy", "initial_value"]

  /**
   * `create_lease` as written: after the product, contact and status checks it
   * builds the contract with `rent_strategy` and `initial_value`, which the
   * model no longer has, so the constructor raises and the atomic block rolls
   * everything back. No call ever opens a lease.
   */
  function CreateLeaseAsWritten(b: Books, productId: int, contactId: int, deposit: int, startDate: Date,
                                rentPrice: int, depreciation: int): (r: Result<Books, Error>)
    ensures r.Err?
    ensures !HasProduct(b, productId) ==> r == Err(ProductNotFound)
    ensures HasProduct(b, productId) && !HasContact(b, contactId) ==> r == Err(ContactNotFound)
    ensures HasProduct(b, productId) && HasContact(b, contactId) && ProductOf(b, productId).status != InStock ==>
              r == Err(NotInStock)
    ensures HasProduct(b, productId) && HasContact(b, contactId) && ProductOf(b, productId).status == InStock ==>
              r == Err(UnexpectedFields(RemovedContractFields))
  {
    if !HasProduct(b, productId) then Err(ProductNotFound)
    else if !HasContact(b, contactId) then Err(ContactNotFound)
    else if ProductOf(b, productId).status != InStock then Err(NotInStock)
    else Err(UnexpectedFields(RemovedContractFields))
  }

  /** Wherever the intended lease would open, the lease as written is refused and nothing is written. */
  lemma LeaseAsWrittenNeverOpens(b: Books, productId: int, contactId: int, deposit: int, startDate: Date,
                                 rentPrice: int, depreciation: int)
    requires CreateLease(b, productId, contactId, deposit, startDate, rentPrice, depreciation).Ok?
    ensures CreateLeaseAsWritten(b, productId, contactId, deposit, startDate, rentPrice, depreciation)
            == Err(UnexpectedFields(RemovedContractFields))
  {
  }

  /** One in-stock product and one customer: the intended lease opens, the written one is refused. */
  lemma LeaseAsWrittenCounterexample()
    ensures var b := Books([Product("25A01ADSJ1", "内存条", SJ, "", "", "", "", "", 20000, 0, 0, None, InStock,
                                    Moment(Date(2025, 10, 1), Date(2025, 10, 1)))],
                           [NewContact("张三", "", "")], [], [], []);
            && CreateLease(b, 1, 1, 0, Date(2025, 10, 2), 5000, 0).Ok?
            && CreateLeaseAsWritten(b, 1, 1, 0, Date(2025, 10, 2), 5000, 0).Err?
  {
  }

  // ---- settle ----

  /**
   * Settle a lease: with a (truthy) end value the product returns to stock
   * valued at that amount and the contract stops being active. There is no
   * cash leg, and the contract is not required to be active.
   */
  function Settle(b: Books, contractId: int, endValue: Option<int>): (r: Result<Books, Error>)
    ensures !HasContract(b, contractId) ==> r == Err(ContractNotFound)
    ensures HasContract(b, contractId) && !Truthy(endValue) ==> r == Err(EndValueRequired)
    ensures r.Ok? <==>
              HasContract(b, contractId) && Truthy(endValue) && HasProduct(b, ContractOf(b, contractId).product)
    ensures r.Ok? ==> OtherProductsKept(b, r.value, ContractOf(b, contractId).product)
    ensures r.Ok? ==>
              var id := ContractOf(b, contractId).product;
              var q := ProductOf(r.value, id);
              && q.status == InStock && q.costPrice == endValue.value
              && q == ProductOf(b, id).(status := InStock, costPrice := endValue.value, name := q.name)
              && (Saved(ProductOf(b, id)) ==> q.name == ProductOf(b, id).name)
    ensures r.Ok? ==>
              && |r.value.contracts| == |b.contracts|
              && ContractOf(r.value, contractId) == ContractOf(b, contractId).(isActive := false)
              && forall k :: 0 <= k < |b.contracts| && k != contractId - 1 ==> r.value.contracts[k] == b.contracts[k]
    ensures r.Ok? ==> r.value.accounts == b.accounts && r.value.contacts == b.contacts && r.value.ledger == b.ledger
  {
    if !HasContract(b, contractId) then Err(ContractNotFound)
    else if !Truthy(endValue) then Err(EndValueRequired)
    else
      var c := ContractOf(b, contractId);
      if !HasProduct(b, c.product) then Err(ProductNotFound)
      else
        var p := ProductOf(b, c.product);
        var b1 := PutProduct(b, c.product, Save(p.(costPrice := endValue.value, status := InStock)));
        Ok(PutContract(b1, contractId, c.(isActive := false)))
  }

  // ---- contacts ----

  /**
   * Create a contact with a zero balance. A blank name, a field wider than its
   * column, or a name already in use is refused.
   */
  function AddContact(b: Books, name: string, phone: string, address: string): (r: Result<Books, Error>)
    ensures r.Ok? <==>
              && ContactFits(NewContact(name, phone, address))
              && !exists k :: 0 <= k < |b.contacts| && b.contacts[k].name == name
    ensures name == "" ==> r == Err(NameRequired)
    ensures name != "" && !ContactFits(NewContact(name, phone, address)) ==> r == Err(FieldTooLong)
    ensures r.Err? && ContactFits(NewContact(name, phone, address)) ==> r == Err(DuplicateContactName)
    ensures r.Ok? ==>
              && r.value.contacts == b.contacts + [NewContact(name, phone, address)]
              && r.value.products == b.products && r.value.accounts == b.accounts
              && r.value.contracts == b.contracts && r.value.ledger == b.ledger
    ensures r.Ok? && ContactNamesUnique(b.contacts) ==> ContactNamesUnique(r.value.contacts)
  {
    if name == "" then Err(NameRequired)
    else if !ContactFits(NewContact(name, phone, address)) then Err(FieldTooLong)
    else if exists k :: 0 <= k < |b.contacts| && b.contacts[k].name == name then Err(DuplicateContactName)
    else Ok(b.(contacts := b.contacts + [NewContact(name, phone, address)]))
  }
}

=== FILE: store.dfy ===
/**
 * The books: every product, contact, capital account, rental contract and
 * transaction, with the lookups, the balance primitives the postings are
 * built from, and the invariant the database's constraints keep.
 */
module Store {
  import opened Results
  import opened Models

  /** Why a request is refused; a refused request leaves the books as they were. */
  datatype Error =
    | ProductNotFound
    | ContactNotFound
    | AccountNotFound
    | ContractNotFound
    | ContactRequired
    | NotInStock
    | EndValueRequired
    | DuplicateZencode
    | DuplicateContactName
    | NameRequired           // a contact needs a non-blank name
    | FieldTooLong           // a text field is wider than its column
    | UnexpectedFields(fields: seq<string>)

  /** Capital accounts are kept in id order, so the first account is `accounts[0]`. */
  datatype Books = Books(
    products: seq<Product>,
    contacts: seq<Contact>,
    accounts: seq<CapitalAccount>,
    contracts: seq<RentalContract>,
    ledger: seq<Transaction>)

  predicate HasProduct(b: Books, id: int) {
    1 <= id <= |b.products|
  }

  predicate HasContact(b: Books, id: int) {
    1 <= id <= |b.contacts|
  }

  predicate HasAccount(b: Books, id: int) {
    1 <= id <= |b.accounts|
  }

  predicate HasContract(b: Books, id: int) {
    1 <= id <= |b.contracts|
  }

  function ProductOf(b: Books, id: int): Product
    requires HasProduct(b, id)
  {
    b.products[id - 1]
  }

  function ContactOf(b: Books, id: int): Contact
    requires HasContact(b, id)
  {
    b.contacts[id - 1]
  }

  function AccountOf(b: Books, id: int): CapitalAccount
    requires HasAccount(b, id)
  {
    b.accounts[id - 1]
  }

  function ContractOf(b: Books, id: int): RentalContract
    requires HasContract(b, id)
  {
    b.contracts[id - 1]
  }

  // ---- ledger primitives ----

  function PutProduct(b: Books, id: int, p: Product): Books
    requires HasProduct(b, id)
  {
    b.(products := b.products[id - 1 := p])
  }

  function PutContract(b: Books, id: int, c: RentalContract): Books
    requires HasContract(b, id)
  {
    b.(contracts := b.contracts[id - 1 := c])
  }

  function MoveContact(b: Books, id: int, delta: int): Books
    requires HasContact(b, id)
  {
    var c := ContactOf(b, id);
    b.(contacts := b.contacts[id - 1 := c.(balance := c.balance + delta)])
  }

  function MoveAccount(b: Books, id: int, delta: int): Books
    requires HasAccount(b, id)
  {
    var a := AccountOf(b, id);
    b.(accounts := b.accounts[id - 1 := a.(currentBalance := a.currentBalance + delta)])
  }

  function Record(b: Books, tx: Transaction): Books {
    b.(ledger := b.ledger + [tx])
  }

  // ---- what a posting may change ----

  /** `t` holds the same contacts as `b`, except that contact `id` has its balance moved by `delta`. */
  predicate ContactsMoved(b: Books, t: Books, id: int, delta: int) {
    && |t.contacts| == |b.contacts|
    && forall k :: 0 <= k < |b.contacts| ==>
         t.contacts[k] == if k == id - 1 then b.contacts[k].(balance := b.contacts[k].balance + delta)
                          else b.contacts[k]
  }

  /** `t` holds the same accounts as `b`, except that account `id` has its balance moved by `delta`. */
  predicate AccountsMoved(b: Books, t: Books, id: int, delta: int) {
    && |t.accounts| == |b.accounts|
    && forall k :: 0 <= k < |b.accounts| ==>
         t.accounts[k] == if k == id - 1 then b.accounts[k].(currentBalance := b.accounts[k].currentBalance + delta)
                          else b.accounts[k]
  }

  /** `t` holds the same products as `b`, except possibly product `id`. */
  predicate OtherProductsKept(b: Books, t: Books, id: int) {
    && |t.products| == |b.products|
    && forall k :: 0 <= k < |b.products| && k != id - 1 ==> t.products[k] == b.products[k]
  }

  // ---- the invariant ----

  /** `Product.zencode` is unique. */
  predicate ZencodesUnique(ps: seq<Product>) {
    forall i, j :: 0 <= i < j < |ps| ==> ps[i].zencode != ps[j].zencode
  }

  /** `Contact.name` is unique. */
  predicate ContactNamesUnique(cs: seq<Contact>) {
    forall i, j :: 0 <= i < j < |cs| ==> cs[i].name != cs[j].name
  }

  /** Every stored product has been through `Product.save`. */
  predicate AllSaved(ps: seq<Product>) {
    forall k :: 0 <= k < |ps| ==> Saved(ps[k])
  }

  /** Every stored product, contact, account name and transaction remark fits its columns. */
  predicate AllFit(b: Books) {
    && (forall k :: 0 <= k < |b.products| ==> FitsColumns(b.products[k]))
    && (forall k :: 0 <= k < |b.contacts| ==> ContactFits(b.contacts[k]))
    && (forall k :: 0 <= k < |b.accounts| ==> |b.accounts[k].name| <= AccountNameWidth)
    && (forall k :: 0 <= k < |b.ledger| ==> |b.ledger[k].remark| <= RemarkWidth)
  }

  predicate RefersWithin(ref: Option<int>, count: int) {
    ref.None? || 1 <= ref.value <= count
  }

  /** Foreign keys: contracts and transactions point at records that exist. */
  predicate Linked(b: Books) {
    && (forall k :: 0 <= k < |b.contracts| ==>
          HasProduct(b, b.contracts[k].product) && HasContact(b, b.contracts[k].contact))
    && (forall k :: 0 <= k < |b.ledger| ==>
          && RefersWithin(b.ledger[k].contact, |b.contacts|)
          && RefersWithin(b.ledger[k].product, |b.products|)
          && RefersWithin(b.ledger[k].account, |b.accounts|))
  }

  predicate Valid(b: Books) {
    && ZencodesUnique(b.products)
    && ContactNamesUnique(b.contacts)
    && AllSaved(b.products)
    && AllFit(b)
    && Linked(b)
  }
}

=== FILE: sums.dfy ===
/** Sums of a measure over a sequence, and how they move when the sequence grows or one element changes. */
module Sums {

  function Sum<T>(s: seq<T>, f: T -> int): int
    decreases |s|
  {
    if s == [] then 0 else f(s[0]) + Sum(s[1..], f)
  }

  lemma {:induction false} SumAppend<T>(s: seq<T>, x: T, f: T -> int)
    ensures Sum(s + [x], f) == Sum(s, f) + f(x)
    decreases |s|
  {
    if s == [] {
      assert s + [x] == [x];
    } else {
      assert (s + [x])[1..] == s[1..] + [x];
      SumAppend(s[1..], x, f);
    }
  }

  lemma {:induction false} SumUpdate<T>(s: seq<T>, i: nat, x: T, f: T -> int)
    requires i < |s|
    ensures Sum(s[i := x], f) == Sum(s, f) - f(s[i]) + f(x)
    decreases |s|
  {
    if i == 0 {
      assert s[i := x][1..] == s[1..];
    } else {
      assert s[i := x][1..] == s[1..][i - 1 := x];
      SumUpdate(s[1..], i - 1, x, f);
    }
  }

  /** A sum of a measure that is never negative is not negative. */
  lemma {:induction false} SumNonNegative<T>(s: seq<T>, f: T -> int)
    requires forall k :: 0 <= k < |s| ==> f(s[k]) >= 0
    ensures Sum(s, f) >= 0
    decreases |s|
  {
    if s != [] {
      assert f(s[0]) >= 0;
      SumNonNegative(s[1..], f);
    }
  }

  /** A sum of a measure that is never positive is not positive. */
  lemma {:induction false} SumNonPositive<T>(s: seq<T>, f: T -> int)
    requires forall k :: 0 <= k < |s| ==> f(s[k]) <= 0
    ensures Sum(s, f) <= 0
    decreases |s|
  {
    if s != [] {
      assert f(s[0]) <= 0;
      SumNonPositive(s[1..], f);
    }
  }

  /** Summing two measures separately is summing their pointwise sum. */
  lemma {:induction false} SumSplit<T>(s: seq<T>, f: T -> int, g: T -> int, h: T -> int)
    requires forall k :: 0 <= k < |s| ==> h(s[k]) == f(s[k]) + g(s[k])
    ensures Sum(s, h) == Sum(s, f) + Sum(s, g)
    decreases |s|
  {
    if s != [] {
      assert h(s[0]) == f(s[0]) + g(s[0]);
      SumSplit(s[1..], f, g, h);
    }
  }
}

=== FILE: text.dfy ===
/** Optional values and results shared by every module. */
module Results {

  datatype Option<+T> = None | Some(value: T) {
    function GetOr(default: T): T {
      if Some? then value else default
    }
  }

  /** The outcome of one posting: the new books, or an error with the books left as they were. */
  datatype Result<+T, +E> = Ok(value: T) | Err(error: E)

  /** Python truthiness of an optional request value: absent and zero are both false. */
  predicate Truthy(o: Option<int>) {
    o.Some? && o.value != 0
  }
}

/** String helpers: decimal rendering of naturals, zero padding, and joining words with spaces. */
module Text {

  predicate IsDigit(c: char) {
    '0' <= c <= '9'
  }

  predicate AllDigits(s: string) {
    forall i :: 0 <= i < |s| ==> IsDigit(s[i])
  }

  function DigitValue(c: char): (d: nat)
    requires IsDigit(c)
    ensures d < 10
  {
    (c as int) - ('0' as int)
  }

  function Digit(d: nat): (c: char)
    requires d < 10
    ensures IsDigit(c) && DigitValue(c) == d
  {
    (('0' as int) + d) as char
  }

  /** Python's `str(n)` for a natural number: at least one digit and no leading zero. */
  function Decimal(n: nat): (s: string)
    ensures 1 <= |s| && AllDigits(s)
    ensures s[0] == '0' ==> n == 0
    decreases n
  {
    if n < 10 then [Digit(n)] else Decimal(n / 10) + [Digit(n % 10)]
  }

  /** Reads a string of digits as a natural number (the inverse of `Decimal`). */
  function DecimalValue(s: string): nat
    requires AllDigits(s)
    decreases |s|
  {
    if s == [] then 0 else 10 * DecimalValue(s[..|s| - 1]) + DigitValue(s[|s| - 1])
  }

  lemma {:induction false} DecimalRoundTrip(n: nat)
    ensures DecimalValue(Decimal(n)) == n
    decreases n
  {
    if n >= 10 {
      DecimalRoundTrip(n / 10);
      var s := Decimal(n);
      assert s[..|s| - 1] == Decimal(n / 10);
    }
  }

  /** Python's `f"{n:02d}"` for n below 100. */
  function TwoDigits(n: nat): (s: string)
    requires n < 100
    ensures |s| == 2 && AllDigits(s) && DecimalValue(s) == n
  {
    var s := [Digit(n / 10), Digit(n % 10)];
    assert s[..1] == [Digit(n / 10)];
    assert DecimalValue(s[..1]) == n / 10 by {
      assert s[..1][..0] == [];
    }
    s
  }

  function TotalLength(parts: seq<string>): nat {
    if parts == [] then 0 else |parts[0]| + TotalLength(parts[1..])
  }

  /** Python's `" ".join(parts)`. */
  function JoinWithSpaces(parts: seq<string>): (s: string)
    ensures parts == [] ==> s == ""
    ensures parts != [] ==> |s| == TotalLength(parts) + |parts| - 1
    ensures parts != [] ==> parts[0] <= s
  {
    if |parts| == 0 then ""
    else if |parts| == 1 then parts[0]
    else parts[0] + " " + JoinWithSpaces(parts[1..])
  }

  /** A word is a non-empty string without a space. */
  predicate IsWord(w: string) {
    w != "" && ' ' !in w
  }

  /** The first index at or after `from` that holds a space, or `|s|` when there is none. */
  function SpaceIndex(s: string, from: nat): (i: nat)
    requires from <= |s|
    ensures from <= i <= |s|
    ensures i < |s| ==> s[i] == ' '
    ensures forall k :: from <= k < i ==> s[k] != ' '
    decreases |s| - from
  {
    if from == |s| || s[from] == ' ' then from else SpaceIndex(s, from + 1)
  }

  /** Splits a string at single spaces; the empty string holds no words. */
  function SplitOnSpaces(s: string): seq<string>
    decreases |s|
  {
    if s == "" then []
    else
      var i := SpaceIndex(s, 0);
      if i == |s| then [s] else [s[..i]] + SplitOnSpaces(s[i + 1..])
  }

  /** Joining words with single spaces loses nothing: splitting gives the words back. */
  lemma {:induction false} SplitJoin(parts: seq<string>)
    requires forall k :: 0 <= k < |parts| ==> IsWord(parts[k])
    ensures SplitOnSpaces(JoinWithSpaces(parts)) == parts
    decreases |parts|
  {
    if |parts| == 1 {
      var w := parts[0];
      assert SpaceIndex(w, 0) == |w|;
    } else if |parts| > 1 {
      var w := parts[0];
      var rest := JoinWithSpaces(parts[1..]);
      var s := w + " " + rest;
      assert JoinWithSpaces(parts) == s;
      var i := SpaceIndex(s, 0);
      assert s[|w|] == ' ';
      assert i == |w|;
      assert s[..i] == w;
      assert s[i + 1..] == rest;
      SplitJoin(parts[1..]);
    }
  }

  /** A join of non-empty strings is empty exactly when there is nothing to join. */
  lemma JoinEmptyIff(parts: seq<string>)
    requires forall k :: 0 <= k < |parts| ==> parts[k] != ""
    ensures JoinWithSpaces(parts) == "" <==> parts == []
  {
    if parts != [] {
      assert |JoinWithSpaces(parts)| >= |parts[0]|;
    }
  }
}

=== FILE: zencode.dfy ===
/**
 * `generate_zencode` (core/views.py): the code a product receives when it is
 * received without one. It is the receipt date, the receiving user's
 * initials, the category code and a running number, written back to back:
 *   two-digit year, one month character (1-9, then A/B/C for October to
 *   December), two-digit day, initials, category, same-day count + 1.
 * The clock and the database count are inputs here.
 */
module Zencode {
  import opened Results
  import opened Text
  import opened Models

  /** `str(year)[-2:]`: the last two characters of the year's decimal form. */
  function YearTag(year: nat): (s: string)
    ensures 1 <= |s| <= 2 && AllDigits(s)
  {
    var d := Decimal(year);
    if |d| >= 2 then d[|d| - 2..] else d
  }

  lemma DecimalLastDigit(n: nat)
    ensures Decimal(n)[|Decimal(n)| - 1] == Digit(n % 10)
  {
  }

  /** From year 10 on, the year tag is the year modulo 100 written with two digits. */
  lemma YearTagDigits(year: nat)
    requires year >= 10
    ensures YearTag(year) == TwoDigits(year % 100)
  {
    var t := Decimal(year / 10);
    var d := Decimal(year);
    assert d == t + [Digit(year % 10)];
    DecimalLastDigit(year / 10);
    assert d[|d| - 2..] == [t[|t| - 1], Digit(year % 10)];
    Mod100Digits(year);
    assert TwoDigits(year % 100) == [Digit((year / 10) % 10), Digit(year % 10)];
  }

  /** Dividing by 100 recovers any quotient and remainder that fit. */
  lemma DivMod100(n: nat, q: nat, r: nat)
    requires r < 100 && n == 100 * q + r
    ensures n / 100 == q && n % 100 == r
  {
  }

  /** Dividing by 10 recovers any quotient and remainder that fit. */
  lemma DivMod10(n: nat, q: nat, r: nat)
    requires r < 10 && n == 10 * q + r
    ensures n / 10 == q && n % 10 == r
  {
  }

  lemma Mod100Digits(n: nat)
    ensures (n % 100) / 10 == (n / 10) % 10
    ensures (n % 100) % 10 == n % 10
  {
    var a, b := n / 10, n % 10;
    var q, r := a / 10, a % 10;
    assert n == 100 * q + (10 * r + b);
    DivMod100(n, q, 10 * r + b);
    DivMod10(10 * r + b, r, b);
  }

  /** The month character: a digit for January to September, `A`, `B`, `C` for October to December. */
  function MonthTag(month: nat): (c: char)
    requires 1 <= month <= 12
    ensures MonthFromTag(c) == Some(month)
  {
    if month == 10 then 'A'
    else if month == 11 then 'B'
    else if month == 12 then 'C'
    else Digit(month)
  }

  function MonthFromTag(c: char): Option<nat> {
    if c == 'A' then Some(10)
    else if c == 'B' then Some(11)
    else if c == 'C' then Some(12)
    else if '1' <= c <= '9' then Some(DigitValue(c))
    else None
  }

  /** The product code for the given receipt date, initials, category and same-day count. */
  function GenerateZencode(today: Date, initials: string, category: Category, sameDayCount: nat): (code: string)
    requires ValidDate(today)
    ensures |code| == |YearTag(today.year)| + 3 + |initials| + 2 + |Decimal(sameDayCount + 1)|
  {
    YearTag(today.year) + [MonthTag(today.month)] + TwoDigits(today.day) + initials + category.Code()
      + Decimal(sameDayCount + 1)
  }

  /** What a generated code carries once the initials and category are known. */
  datatype CodeFields = CodeFields(yearTag: nat, month: nat, day: nat, sequence: nat)

  /** Reads a code with a two-digit year tag back into its date and running number. */
  function ParseZencode(code: string, initials: string, category: Category): Option<CodeFields> {
    var head := 5 + |initials|;
    var tail := head + 2;
    if |code| <= tail || !AllDigits(code[..2]) || MonthFromTag(code[2]).None? || !AllDigits(code[3..5])
       || code[5..head] != initials || code[head..tail] != category.Code() || !AllDigits(code[tail..])
    then None
    else Some(CodeFields(DecimalValue(code[..2]), MonthFromTag(code[2]).value,
                         DecimalValue(code[3..5]), DecimalValue(code[tail..])))
  }

  /** A generated code carries the year modulo 100, the month, the day and the count plus one. */
  lemma ZencodeRoundTrip(today: Date, initials: string, category: Category, sameDayCount: nat)
    requires ValidDate(today) && today.year >= 10
    ensures ParseZencode(GenerateZencode(today, initials, category, sameDayCount), initials, category)
            == Some(CodeFields(today.year % 100, today.month, today.day, sameDayCount + 1))
  {
    var y := YearTag(today.year);
    YearTagDigits(today.year);
    var m := MonthTag(today.month);
    var d := TwoDigits(today.day);
    var c := category.Code();
    var n := Decimal(sameDayCount + 1);
    var code := GenerateZencode(today, initials, category, sameDayCount);
    var head := 5 + |initials|;
    assert code == y + [m] + d + initials + c + n;
    assert code[..2] == y;
    assert code[2] == m;
    assert code[3..5] == d;
    assert code[5..head] == initials;
    assert code[head..head + 2] == c;
    assert code[head + 2..] == n;
    DecimalRoundTrip(sameDayCount + 1);
  }

  /** On one day, for one user and category, different counts never give the same code. */
  lemma ZencodeDistinctCounts(today: Date, initials: string, category: Category, m: nat, n: nat)
    requires ValidDate(today) && today.year >= 10 && m != n
    ensures GenerateZencode(today, initials, category, m) != GenerateZencode(today, initials, category, n)
  {
    ZencodeRoundTrip(today, initials, category, m);
    ZencodeRoundTrip(today, initials, category, n);
  }
}
